=== FILE: README.md ===
# Leadership power quiz — a Dafny model

The app is a seven-category "power base" questionnaire. It has 21 forced-choice
questions. Each question splits 3 points between two of the seven power bases:
coercive, connection, expert, information, legitimate, referent and reward,
coded A..G. The answers are summed into one total per category. The app then
ranks the totals for a radar chart, with highlighted top-three and bottom-three
labels. It asks a text-generation service for a coaching report and renders
that report line by line.

This project models that logic as immutable datatypes and pure functions:

| file | module | what it holds |
|---|---|---|
| `types.dfy` | `Types` | the seven codes, a question pair, a score entry, a power-base record |
| `strings.dfy` | `Strings` | the JavaScript string operations the app relies on: `startsWith`, `trim`, `split` on one character, `split(' (')[0]`, `replace` of the first occurrence |
| `catalog.dfy` | `Catalog` | `POWER_BASES` and `SURVEY_QUESTIONS` as constant data, with the facts proved about them |
| `scores.dfy` | `Scores` | the initial score state, `handleScoreChange`, the sum-3 invariant, the 1.5 highlight rule |
| `totals.dfy` | `Totals` | `categoryTotals`: the reference definition, the loop that computes it, and its bounds |
| `ranking.dfy` | `Ranking` | `chartData`, the stable descending sort, `topPower`, `top3Categories`, `bottom3Categories`, the label classifier |
| `report.dfy` | `Report` | the report text a finished request stores, and the line classifier of the report view |
| `session.dfy` | `Session` | the screens (intro, survey, result) and the report request as a state machine |

Each operation has a partner stated and proved against it:

- `SetAnswer` has the invariant it keeps.
- `ComputeTotals` has the reference sum `Total`.
- `SortDesc` has the lexicographic order `Ranked`, which determines its output uniquely.
- `Split` has `Join`.
- Each line kind of the classifier has an if-and-only-if characterisation.
- `Step` has the session invariant `Inv`.

The request to the text-generation service is an event, `Complete(outcome)`. Its
outcome is either `Succeeded(text)` or `Failed`, and it arrives at any time after
the request has started. A `pending` counter records how many requests are still
outstanding. The source keeps no such counter: it is there so that overlapping
requests, and completions that arrive after a restart, can be expressed.

### Behaviour worth knowing

- **Restart keeps the scores.** "Diagnose again" (App.tsx:450) sets the phase to intro and clears the report. It does not reset the scores, so a new round starts from the previous answers. `Session.RestartKeepsScores` states this.
- **Top and bottom three can overlap.** They share a subject exactly when the list has between one and five rows (`Ranking.TopBottomOverlap`). With the seven rows the app always has, they never overlap (`Ranking.ChartTicks`).
- **A worked ranking.** For the totals A 10, B 5, C 8, D 2, E 9, F 1, G 7, the code ranks A, E, C, G, B, D, F, so its bottom three are B, D, F (`Ranking.SampleRanking`).
- **The order of the classifier's prefix checks does not change the result.** The prefixes "# ", "## ", "### " and "- "/"* " exclude each other, and no line carrying one is blank (`Report.MarkersExclusive`).
- **The sum-3 property needs no range check.** An answer makes its entry sum to 3 for any value. Only the 0..3 bounds need the value to be in range (`Scores.SetAnswer`, `Scores.SetAnswerValidIff`).

## Model

| member | source | states |
|---|---|---|
| Types.Ord | types.ts:2 | each of the seven codes has a position in the A..G list, and the list holds that code there |
| Types.AllCategoriesComplete | types.ts:2 | the A..G list contains every code, so the set of codes is closed |
| Types.CodeInjective | types.ts:2 | two codes have the same one-letter key exactly when they are the same code |
| Catalog.QuestionIds | constants.tsx:14-36 | there are 21 questions; question k has id k+1; ids are pairwise distinct; the id set is exactly 1..21 |
| Catalog.OpposingSides | constants.tsx:15-35 | every question opposes two different categories |
| Catalog.PowerBasesKeyedByCode | constants.tsx:4-12 | `POWER_BASES` has exactly the keys "A".."G", and each record's category is the code of its key, so every lookup by a question's category succeeds |
| Catalog.BaseOf | App.tsx:94-97 | looking up a category in `POWER_BASES` yields the record of that same category |
| Catalog.SubjectOfEach | constants.tsx:5-11 | the chart subject of each record is its Korean name, the part of `name` before " (" |
| Catalog.SubjectsDistinct | constants.tsx:5-11 | two chart subjects (name up to " (") are equal exactly when their categories are equal |
| Catalog.CatalogOccurrences | constants.tsx:15-35 | the categories occur on A 6, B 7, C 5, D 5, E 6, F 7, G 6 sides; none occurs more than 7 times |
| Catalog.OccurrencesSum | constants.tsx:15-35 | over any question list the seven occurrence counts add up to twice the number of questions |
| Strings.BeforeFirst | App.tsx:94 | `split(sep)[0]` is a prefix of the string: either the whole string, or a prefix directly followed by the separator |
| Strings.BeforeFirstIsFirst | App.tsx:94 | no occurrence of the separator starts inside the part before the first one |
| Strings.BeforeParen | App.tsx:94 | for a name made of any head without '(', then " (" and anything, the subject is that head |
| Strings.TrimEmptyIffAllWhitespace | App.tsx:435 | `trim()` yields "" exactly when every character is whitespace |
| Strings.SplitJoin | App.tsx:430 | splitting on a character yields one more piece than there are separators; no piece contains the separator; joining the pieces back gives the text |
| Strings.JoinSplit | App.tsx:430 | pieces free of the separator, joined and split again, are recovered |
| Strings.RemoveFirst | App.tsx:431-433 | `replace(prefix, '')` on a line that starts with the prefix drops exactly that prefix; otherwise at most one occurrence is removed |
| Strings.RemoveFirstNone | App.tsx:431-433 | with no occurrence of the pattern, `replace` leaves the string unchanged |
| Strings.RemoveFirstAt | App.tsx:431-433 | with the first occurrence at position i, `replace` cuts out exactly the pattern at i and keeps everything before and after |
| Scores.InitialScores | App.tsx:72-78 | the initial state has exactly the question ids as keys, and every entry is (1, 2) |
| Scores.InitialWellFormed | App.tsx:72-78 | the initial state satisfies the invariant: one entry per question, each in 0..3 and summing to 3 |
| Scores.SetAnswer | App.tsx:172-180 | an answer adds the id to the keys; its entry gets scoreA = v and sums to 3; every other entry is unchanged |
| Scores.SetAnswerValidIff | App.tsx:172-180 | the new entry is valid (both sides in 0..3) exactly when v is in 0..3 |
| Scores.SetAnswerPreserves | App.tsx:172-180 | an answer for a catalog id with v in 0..3 preserves the invariant |
| Scores.SetAnswerUnknownId | App.tsx:172-180 | an answer for an id outside the catalog breaks the key-set invariant, since the source does not check the id |
| Scores.SetAnswerIdempotent | App.tsx:172-180 | repeating an answer changes nothing |
| Scores.ChoiceInRange | App.tsx:254-282 | the A button passes 3 and the B button 0; every choice passes a value in 0..3 exactly when the slider position is in 0..3 |
| Scores.ExactlyOneHighlighted | App.tsx:253-264 | for a valid entry exactly one side exceeds 1.5, and it is side A exactly when scoreA ≥ 2 |
| Totals.CategoryTotals | App.tsx:83-90 | the totals record has an entry for every category, equal to the reference sum of that category over the questions |
| Totals.ComputeTotals | App.tsx:83-90 | the loop (start all at 0, add each question's scoreA to catA and scoreB to catB) computes exactly the reference sums |
| Totals.UnreferencedIsZero | App.tsx:83-90 | a category that no question mentions keeps total 0 |
| Totals.TotalBounds | App.tsx:83-90 | with valid entries, each total lies between 0 and 3 times the number of sides carrying its category |
| Totals.SumOfTotalsIn | App.tsx:83-90 | the seven totals together count every point of every question exactly once |
| Totals.SumOfTotals | App.tsx:83-90 | under the sum-3 invariant the seven totals add up to 3 per question |
| Totals.CatalogTotals | App.tsx:332 | for the catalog the totals add up to 63 and each lies in 0..21, the radius domain of the chart |
| Ranking.EntryFor | App.tsx:93-99 | a chart row carries its category and that category's total |
| Ranking.ChartData | App.tsx:92-100 | one row per category, row k belonging to the k-th code of A..G |
| Ranking.ChartDataAscending | App.tsx:84-100 | the rows come in strictly increasing category order |
| Ranking.Insert | App.tsx:107-109 | insertion adds exactly the one row and keeps a descending list descending |
| Ranking.SortDesc | App.tsx:107-109 | the sorted rows are a permutation of the input and are non-increasing by value |
| Ranking.InsertRanked | App.tsx:107-109 | inserting a row whose category precedes all others keeps a list ranked by (value desc, category asc) |
| Ranking.SortRanked | App.tsx:107-109 | stability: rows given in A..G order sort by value descending, ties in A..G order |
| Ranking.RankedUnique | App.tsx:107-109 | two ranked lists with the same rows are equal, so the ranking fully determines the sort output |
| Ranking.RankedFirst | App.tsx:107-109 | two ranked lists with the same rows start with the same row |
| Ranking.SortedRowsFaithful | App.tsx:92-109 | the sorted list has seven rows, is ranked, each row is its category's row, and no category repeats |
| Ranking.TopPowerIsMax | App.tsx:102-104 | `topPower` carries its category's total; no total exceeds it; among equal totals it is the earliest category |
| Ranking.Top3 | App.tsx:111-113 | the subjects of the first min(3, n) sorted rows, in order |
| Ranking.Bottom3 | App.tsx:115-118 | the subjects of the last min(3, n) sorted rows, from index max(0, n-3), in order |
| Ranking.Tick | App.tsx:35-50 | a label is "top" exactly when its subject is among the top three; "bottom" exactly when it is not but is among the bottom three; plain otherwise |
| Ranking.TopBottomOverlap | App.tsx:111-118 | with distinct subjects, top three and bottom three share a subject exactly when there are 1 to 5 rows |
| Ranking.TopBottomDisjoint | App.tsx:111-118 | with distinct subjects and more than five rows, no subject of the top three is among the bottom three |
| Ranking.ChartTicks | App.tsx:35-50 | for the seven sorted rows, rank 0-2 is styled top, rank 3 plain and rank 4-6 bottom |
| Ranking.SampleRanking | App.tsx:92-118 | for any totals A 10, B 5, C 8, D 2, E 9, F 1, G 7 the sorted rows are A, E, C, G, B, D, F, so the bottom three are B, D, F |
| Report.ReportText | App.tsx:155-158 | a finished request stores the returned text if non-empty; the "cannot generate" sentence for an empty text; the fixed apology on failure; never "" |
| Report.StripListMarker | App.tsx:434 | `replace(/^[-*]\s/, '')` yields the line itself or the line without its first two characters, and a line opening with "- " or "* " always loses those two |
| Report.FormatReport | App.tsx:430-437 | one block per `\n`-separated line, each the classification of that line |
| Report.FormatReportLines | App.tsx:430 | the report has one block more than it has line breaks, and its lines joined back give the text |
| Report.MarkerSplit | App.tsx:431-434 | a line is marker + t exactly when it starts with the marker and the rest is t |
| Report.MarkersExclusive | App.tsx:431-436 | the four prefixes exclude each other, and a line carrying one is never whitespace only |
| Report.Heading1Iff | App.tsx:431 | a line is a level-1 heading with text t exactly when it is "# " + t |
| Report.Heading2Iff | App.tsx:432 | a line is a level-2 heading with text t exactly when it is "## " + t |
| Report.Heading3Iff | App.tsx:433 | a line is a level-3 heading with text t exactly when it is "### " + t |
| Report.ListItemIff | App.tsx:434 | a line is a list item with text t exactly when it is "- " + t or "* " + t |
| Report.SpacerIff | App.tsx:435 | a line is a spacer exactly when it is whitespace only |
| Report.ParagraphIff | App.tsx:436 | a line is a paragraph exactly when it carries no prefix and is not blank, and the paragraph is the line verbatim |
| Report.DashAloneIsListItem | App.tsx:434-435 | the line "- " is an empty list item, not a spacer |
| Session.Init | App.tsx:71-81 | the app starts on the intro screen with no report, not analyzing, no request outstanding, and every question at the initial (1, 2) answer |
| Session.StartRequest | App.tsx:122-124 | starting a request sets the analyzing flag and clears the report, leaving phase and scores alone |
| Session.Step | App.tsx:165-450 | only an answer can change the scores; the phase moves only intro to survey (start), survey to result (show result) and result to intro (restart); each event is accepted exactly on the screen that offers it (regenerate only while not analyzing, a completion only while a request is outstanding); start changes nothing but the phase, an answer nothing but that question's pair, and "analyse again" (App.tsx:405-407) sets the flag, clears the report and sends a request, keeping phase and scores |
| Session.InitInv | App.tsx:71-81 | the initial state satisfies the session invariant |
| Session.StepInv | App.tsx:122-180 | every screen event preserves the invariant: well-formed scores; analyzing implies an empty report and an outstanding request; a settled result screen has a report |
| Session.RunInv | App.tsx:71-180 | the invariant holds in every state reachable from a state satisfying it |
| Session.ResultNeverUnavailable | App.tsx:415-443 | on the result screen, in a state satisfying the invariant, the view is loading or a formatted report, never the "could not fetch" placeholder |
| Session.ShowResultStartsRequest | App.tsx:164-169 | entering the result screen starts a request: analyzing set, report cleared |
| Session.RegenerateStartsRequest | App.tsx:405-407 | "analyse again" on the result screen while not analyzing sets the flag, clears the report and adds an outstanding request; phase and scores are kept |
| Session.RestartKeepsScores | App.tsx:450 | restart goes to the intro screen and clears the report, but keeps the scores, the analyzing flag and any outstanding request |
| Session.CompleteStores | App.tsx:155-161 | a completion stores the outcome's report text, clears the flag and retires one request, leaving phase and scores as they are; a non-empty text is stored verbatim, a failure stores the apology, an empty text the "cannot generate" sentence |
| Session.LateCompletion | App.tsx:122-169 | a request completing after a restart leaves its text behind on the intro screen; the first of two overlapping requests clears the flag while the second is outstanding |
| Session.ResultFacts | App.tsx:83-118 | in any state satisfying the invariant the totals sum to 63, each lies in 0..21, and the top power's total bounds all of them |

## Left out

- JSX markup, styling classes, the radar-chart geometry and the SVG of the label component: only the top/bottom/plain classification of a label is modelled.
- The text-generation service call (client construction, API key, model parameters, error logging): a request is an event whose outcome is `Succeeded(text)` or `Failed`.
- The prompt text and the `scoreSummary` string (App.tsx:128-143): they only feed the service.
- React's `useMemo`/`useEffect` caching and render timing: derived values are recomputed from the state, and "entering the result screen starts a request" is one atomic step.
- Which request a completion belongs to: completions are not matched to their requests. The model records only how many are outstanding, and any completion may come next.
- `window.print` and `window.scrollTo`: effects outside the app's state.
- The floating-point progress and bar widths (App.tsx:227, 364), and `parseInt` of the slider string (App.tsx:282): the slider position is an integer, and `Session.FromScreen` bounds it to 0..3, the range of the input element.
- The in-place `chartData.sort` of the score list (App.tsx:353): it reorders the memoised rows themselves, and the radar chart (App.tsx:326) holds the same array and draws only after that line has run, so the radar's vertices come in the sorted order rather than A..G. The chart geometry is not modelled; the ranking is modelled as a sorted copy, which is what the memoised top/bottom lists (App.tsx:102-118) see, since they sort before line 353 runs.
- Question texts and power-base descriptions: they are abstracted away. Power-base names and colours are kept verbatim, since the chart subjects come from the names.
- The labels under the two answer buttons (`name.split(' ')[0]`, App.tsx:258, 269): display only.
- Session.ResultNeverUnavailable: in the app, moving to the result screen first renders once with the flag still clear, which shows the "could not fetch" placeholder (or a late completion's text) for a frame; only then does the effect at App.tsx:165-169 start the request. The model makes the move and the request start one step, so this one-frame placeholder is not represented.

=== FILE: catalog.dfy ===
/** The fixed catalog of `constants.tsx`: the seven power bases and the 21
    question pairs, together with facts about them that the rest of the
    application relies on. */
module Catalog {
  import opened Types
  import Strings

  /** `POWER_BASES`, a record keyed by the one-letter code of each category.
      Descriptions are not modelled. */
  const PowerBases: map<string, PowerBaseInfo> := map[
    "A" := PowerBaseInfo(A, "강압적 권력 (Coercive)", "#EF4444"),
    "B" := PowerBaseInfo(B, "연계적 권력 (Connection)", "#F59E0B"),
    "C" := PowerBaseInfo(C, "전문적 권력 (Expert)", "#10B981"),
    "D" := PowerBaseInfo(D, "정보적 권력 (Information)", "#3B82F6"),
    "E" := PowerBaseInfo(E, "합법적 권력 (Legitimate)", "#8B5CF6"),
    "F" := PowerBaseInfo(F, "준거적 권력 (Referent)", "#EC4899"),
    "G" := PowerBaseInfo(G, "보상적 권력 (Reward)", "#06B6D4")
  ]

  /** `SURVEY_QUESTIONS`, in order; the question texts are not modelled. */
  const Questions: seq<QuestionPair> := [
    QuestionPair(1, A, B),
    QuestionPair(2, C, D),
    QuestionPair(3, E, F),
    QuestionPair(4, G, A),
    QuestionPair(5, B, C),
    QuestionPair(6, D, E),
    QuestionPair(7, F, G),
    QuestionPair(8, B, F),
    QuestionPair(9, C, A),
    QuestionPair(10, D, E),
    QuestionPair(11, A, B),
    QuestionPair(12, E, B),
    QuestionPair(13, F, C),
    QuestionPair(14, G, B),
    QuestionPair(15, A, E),
    QuestionPair(16, B, F),
    QuestionPair(17, C, G),
    QuestionPair(18, D, F),
    QuestionPair(19, E, G),
    QuestionPair(20, F, A),
    QuestionPair(21, G, D)
  ]

  /** The ids of a list of questions. */
  function Ids(qs: seq<QuestionPair>): (ids: set<int>)
    ensures forall k :: 0 <= k < |qs| ==> qs[k].id in ids
    ensures forall id :: id in ids ==> exists k :: 0 <= k < |qs| && qs[k].id == id
  {
    set k | 0 <= k < |qs| :: qs[k].id
  }

  /** The lookup of a category's record, `POWER_BASES[cat]`. */
  function BaseOf(c: Category): (info: PowerBaseInfo)
    ensures info.category == c
  {
    PowerBasesKeyedByCode(c);
    PowerBases[Code(c)]
  }

  /** The chart label of a name: the part before " (", `name.split(' (')[0]`. */
  function Subject(name: string): (subject: string)
    ensures |subject| <= |name| && subject == name[..|subject|]
  {
    Strings.BeforeFirst(name, " (")
  }

  /** How often a category appears as side A or side B of the questions. */
  function Occurrences(qs: seq<QuestionPair>, c: Category): nat {
    OccurrencesIn(qs, |qs|, c)
  }

  /** `Occurrences` over the first `n` questions. */
  function OccurrencesIn(qs: seq<QuestionPair>, n: nat, c: Category): nat
    requires n <= |qs|
  {
    if n == 0 then 0 else OccurrencesIn(qs, n - 1, c) + Sides(qs[n - 1], c)
  }

  /** How many sides of one question carry category `c`. */
  function Sides(q: QuestionPair, c: Category): nat {
    (if q.catA == c then 1 else 0) + (if q.catB == c then 1 else 0)
  }

  // ------------------------------------------------------------- facts

  /** There are 21 questions and question k carries id k + 1, so ids are
      pairwise distinct and the id set is exactly 1..21. */
  lemma QuestionIds()
    ensures |Questions| == 21
    ensures forall k :: 0 <= k < |Questions| ==> Questions[k].id == k + 1
    ensures forall j, k :: 0 <= j < k < |Questions| ==> Questions[j].id != Questions[k].id
    ensures forall id :: id in Ids(Questions) <==> 1 <= id <= 21
  {
    forall id | 1 <= id <= 21 ensures id in Ids(Questions) {
      assert Questions[id - 1].id == id;
    }
  }

  /** Every question opposes two different categories. */
  lemma OpposingSides()
    ensures forall k :: 0 <= k < |Questions| ==> Questions[k].catA != Questions[k].catB
  {
  }

  /** `POWER_BASES` has exactly the keys "A".."G", and the record stored under
      a key carries the category that key names; so every lookup of a
      question's category finds a record. */
  lemma PowerBasesKeyedByCode(c: Category)
    ensures PowerBases.Keys == set d: Category :: Code(d)
    ensures Code(c) in PowerBases && PowerBases[Code(c)].category == c
  {
    PowerBasesKeys();
    match c
    case A => assert PowerBases["A"].category == A;
    case B => assert PowerBases["B"].category == B;
    case C => assert PowerBases["C"].category == C;
    case D => assert PowerBases["D"].category == D;
    case E => assert PowerBases["E"].category == E;
    case F => assert PowerBases["F"].category == F;
    case G => assert PowerBases["G"].category == G;
  }

  lemma PowerBasesKeys()
    ensures PowerBases.Keys == set d: Category :: Code(d)
  {
    var codes := set d: Category :: Code(d);
    assert codes == {"A", "B", "C", "D", "E", "F", "G"} by {
      assert Code(A) in codes && Code(B) in codes && Code(C) in codes && Code(D) in codes;
      assert Code(E) in codes && Code(F) in codes && Code(G) in codes;
    }
  }

  /** The chart subjects of the seven records are pairwise different. */
  lemma SubjectsDistinct(c: Category, d: Category)
    ensures Subject(BaseOf(c).name) == Subject(BaseOf(d).name) <==> c == d
  {
    SubjectOfEach(c);
    SubjectOfEach(d);
  }

  /** The chart subject of each record, written out. */
  function SubjectLabel(c: Category): string {
    match c
    case A => "강압적 권력"
    case B => "연계적 권력"
    case C => "전문적 권력"
    case D => "정보적 권력"
    case E => "합법적 권력"
    case F => "준거적 권력"
    case G => "보상적 권력"
  }

  /** The chart subject of each record is its written-out label. */
  lemma SubjectOfEach(c: Category)
    ensures Subject(BaseOf(c).name) == SubjectLabel(c)
  {
    match c
    case A => SubjectOfA();
    case B => SubjectOfB();
    case C => SubjectOfC();
    case D => SubjectOfD();
    case E => SubjectOfE();
    case F => SubjectOfF();
    case G => SubjectOfG();
  }

  lemma SubjectOfA()
    ensures Subject(BaseOf(A).name) == "강압적 권력"
  {
    assert BaseOf(A).name == "강압적 권력" + " (" + "Coercive)";
    Strings.BeforeParen("강압적 권력", "Coercive)");
  }

  lemma SubjectOfB()
    ensures Subject(BaseOf(B).name) == "연계적 권력"
  {
    assert BaseOf(B).name == "연계적 권력" + " (" + "Connection)";
    Strings.BeforeParen("연계적 권력", "Connection)");
  }

  lemma SubjectOfC()
    ensures Subject(BaseOf(C).name) == "전문적 권력"
  {
    assert BaseOf(C).name == "전문적 권력" + " (" + "Expert)";
    Strings.BeforeParen("전문적 권력", "Expert)");
  }

  lemma SubjectOfD()
    ensures Subject(BaseOf(D).name) == "정보적 권력"
  {
    assert BaseOf(D).name == "정보적 권력" + " (" + "Information)";
    Strings.BeforeParen("정보적 권력", "Information)");
  }

  lemma SubjectOfE()
    ensures Subject(BaseOf(E).name) == "합법적 권력"
  {
    assert BaseOf(E).name == "합법적 권력" + " (" + "Legitimate)";
    Strings.BeforeParen("합법적 권력", "Legitimate)");
  }

  lemma SubjectOfF()
    ensures Subject(BaseOf(F).name) == "준거적 권력"
  {
    assert BaseOf(F).name == "준거적 권력" + " (" + "Referent)";
    Strings.BeforeParen("준거적 권력", "Referent)");
  }

  lemma SubjectOfG()
    ensures Subject(BaseOf(G).name) == "보상적 권력"
  {
    assert BaseOf(G).name == "보상적 권력" + " (" + "Reward)";
    Strings.BeforeParen("보상적 권력", "Reward)");
  }

  /** Each question adds one occurrence to its A side and one to its B side,
      so the counts over all categories add up to twice the question count. */
  lemma {:induction false} OccurrencesSum(qs: seq<QuestionPair>)
    ensures Occurrences(qs, A) + Occurrences(qs, B) + Occurrences(qs, C) + Occurrences(qs, D)
          + Occurrences(qs, E) + Occurrences(qs, F) + Occurrences(qs, G) == 2 * |qs|
  {
    OccurrencesInSum(qs, |qs|);
  }

  lemma {:induction false} OccurrencesInSum(qs: seq<QuestionPair>, n: nat)
    requires n <= |qs|
    ensures OccurrencesIn(qs, n, A) + OccurrencesIn(qs, n, B) + OccurrencesIn(qs, n, C)
          + OccurrencesIn(qs, n, D) + OccurrencesIn(qs, n, E) + OccurrencesIn(qs, n, F)
          + OccurrencesIn(qs, n, G) == 2 * n
  {
    if n > 0 {
      OccurrencesInSum(qs, n - 1);
      SidesTwo(qs[n - 1]);
    }
  }

  /** One question has exactly two sides. */
  lemma SidesTwo(q: QuestionPair)
    ensures Sides(q, A) + Sides(q, B) + Sides(q, C) + Sides(q, D) + Sides(q, E) + Sides(q, F) + Sides(q, G) == 2
  {
  }

  /** The occurrence counts of the catalog: A 6, B 7, C 5, D 5, E 6, F 7, G 6;
      none exceeds 7. */
  lemma CatalogOccurrences(c: Category)
    ensures c == A ==> Occurrences(Questions, c) == 6
    ensures c == B ==> Occurrences(Questions, c) == 7
    ensures c == C ==> Occurrences(Questions, c) == 5
    ensures c == D ==> Occurrences(Questions, c) == 5
    ensures c == E ==> Occurrences(Questions, c) == 6
    ensures c == F ==> Occurrences(Questions, c) == 7
    ensures c == G ==> Occurrences(Questions, c) == 6
    ensures Occurrences(Questions, c) <= 7
  {
    match c
    case A => OccurrencesA();
    case B => OccurrencesB();
    case C => OccurrencesC();
    case D => OccurrencesD();
    case E => OccurrencesE();
    case F => OccurrencesF();
    case G => OccurrencesG();
  }

  lemma OccurrencesA()
    ensures Occurrences(Questions, A) == 6
  {
    CatalogUnrolled(A);
  }

  lemma OccurrencesB()
    ensures Occurrences(Questions, B) == 7
  {
    CatalogUnrolled(B);
  }

  lemma OccurrencesC()
    ensures Occurrences(Questions, C) == 5
  {
    CatalogUnrolled(C);
  }

  lemma OccurrencesD()
    ensures Occurrences(Questions, D) == 5
  {
    CatalogUnrolled(D);
  }

  lemma OccurrencesE()
    ensures Occurrences(Questions, E) == 6
  {
    CatalogUnrolled(E);
  }

  lemma OccurrencesF()
    ensures Occurrences(Questions, F) == 7
  {
    CatalogUnrolled(F);
  }

  lemma OccurrencesG()
    ensures Occurrences(Questions, G) == 6
  {
    CatalogUnrolled(G);
  }

  /** `Occurrences(Questions, c)` written out question by question. */
  lemma CatalogUnrolled(c: Category)
    ensures Occurrences(Questions, c) ==
            Sides(Questions[0], c) + Sides(Questions[1], c) + Sides(Questions[2], c) + Sides(Questions[3], c)
          + Sides(Questions[4], c) + Sides(Questions[5], c) + Sides(Questions[6], c) + Sides(Questions[7], c)
          + Sides(Questions[8], c) + Sides(Questions[9], c) + Sides(Questions[10], c) + Sides(Questions[11], c)
          + Sides(Questions[12], c) + Sides(Questions[13], c) + Sides(Questions[14], c) + Sides(Questions[15], c)
          + Sides(Questions[16], c) + Sides(Questions[17], c) + Sides(Questions[18], c) + Sides(Questions[19], c)
          + Sides(Questions[20], c)
  {
    CatalogStep(1, c); CatalogStep(2, c); CatalogStep(3, c); CatalogStep(4, c); CatalogStep(5, c);
    CatalogStep(6, c); CatalogStep(7, c); CatalogStep(8, c); CatalogStep(9, c); CatalogStep(10, c);
    CatalogStep(11, c); CatalogStep(12, c); CatalogStep(13, c); CatalogStep(14, c); CatalogStep(15, c);
    CatalogStep(16, c); CatalogStep(17, c); CatalogStep(18, c); CatalogStep(19, c); CatalogStep(20, c);
    CatalogStep(21, c);
  }

  lemma CatalogStep(n: nat, c: Category)
    requires 1 <= n <= |Questions|
    ensures OccurrencesIn(Questions, n, c) == OccurrencesIn(Questions, n - 1, c) + Sides(Questions[n - 1], c)
  {
  }
}

=== FILE: ranking.dfy ===
/** Ranking and highlighting in `App.tsx`: the chart rows built from the
    totals in A..G order, their stable descending sort, the top power, the
    top-3 and bottom-3 subject lists and the style of a chart label. */
module Ranking {
  import opened Types
  import Catalog

  /** One row of `chartData`. */
  datatype ChartEntry = ChartEntry(subject: string, fullLabel: string, value: int, color: string, category: Category)

  /** The row of category `c`, read from its `POWER_BASES` record. */
  function EntryFor(t: map<Category, int>, c: Category): (e: ChartEntry)
    requires c in t
    ensures e.category == c && e.value == t[c]
  {
    var info := Catalog.BaseOf(c);
    ChartEntry(Catalog.Subject(info.name), info.name, t[c], info.color, c)
  }

  /** `chartData`: one row per category, in the order A..G in which the totals
      record was built. */
  function ChartData(t: map<Category, int>): (rows: seq<ChartEntry>)
    requires forall c :: c in t
    ensures |rows| == |AllCategories|
    ensures forall k :: 0 <= k < |rows| ==> rows[k] == EntryFor(t, AllCategories[k])
  {
    seq(|AllCategories|, k requires 0 <= k < |AllCategories| => EntryFor(t, AllCategories[k]))
  }

  // --------------------------------------------------------------- sort

  /** The order the comparator `(a, b) => b.value - a.value` sorts into: by
      descending value. */
  predicate NonIncreasing(xs: seq<ChartEntry>) {
    forall i, j :: 0 <= i < j < |xs| ==> xs[i].value >= xs[j].value
  }

  /** `a` is ranked before `b`: a higher value, or an equal value and an
      earlier category. */
  predicate Before(a: ChartEntry, b: ChartEntry) {
    a.value > b.value || (a.value == b.value && Ord(a.category) < Ord(b.category))
  }

  /** Every row is ranked before every later row. */
  predicate Ranked(xs: seq<ChartEntry>) {
    forall i, j :: 0 <= i < j < |xs| ==> Before(xs[i], xs[j])
  }

  /** The rows appear in strictly increasing category order. */
  predicate CategoryAscending(xs: seq<ChartEntry>) {
    forall i, j :: 0 <= i < j < |xs| ==> Ord(xs[i].category) < Ord(xs[j].category)
  }

  /** Inserts `x` in front of the first row whose value does not exceed its
      own, so that `x` stays ahead of the rows with the same value. */
  function Insert(x: ChartEntry, ys: seq<ChartEntry>): (r: seq<ChartEntry>)
    ensures multiset(r) == multiset(ys) + multiset{x}
    ensures NonIncreasing(ys) ==> NonIncreasing(r)
  {
    if |ys| == 0 then [x]
    else if ys[0].value > x.value then
      var tail := Insert(x, ys[1..]);
      assert multiset(ys) == multiset{ys[0]} + multiset(ys[1..]) by { assert ys == [ys[0]] + ys[1..]; }
      InsertHeadBound(ys, x, tail);
      [ys[0]] + tail
    else [x] + ys
  }

  /** The head of a descending list bounds whatever the insertion into its
      tail produces, when it also bounds the inserted row. */
  lemma InsertHeadBound(ys: seq<ChartEntry>, x: ChartEntry, tail: seq<ChartEntry>)
    requires |ys| > 0 && ys[0].value > x.value
    requires multiset(tail) == multiset(ys[1..]) + multiset{x}
    requires NonIncreasing(tail) || !NonIncreasing(ys)
    ensures NonIncreasing(ys) ==> NonIncreasing([ys[0]] + tail)
  {
    if NonIncreasing(ys) {
      var r := [ys[0]] + tail;
      forall i, j | 0 <= i < j < |r| ensures r[i].value >= r[j].value {
        if i == 0 {
          assert r[j] == tail[j - 1];
          assert tail[j - 1] in multiset(tail);
          if tail[j - 1] != x {
            assert tail[j - 1] in multiset(ys[1..]);
            var k :| 0 <= k < |ys[1..]| && ys[1..][k] == tail[j - 1];
            assert ys[k + 1] == r[j];
          }
        } else {
          assert r[i] == tail[i - 1] && r[j] == tail[j - 1];
        }
      }
    }
  }

  /** `[...chartData].sort((a, b) => b.value - a.value)`: a stable sort by
      descending value, as section 23.1.3.30 of ECMA-262 requires of
      `Array.prototype.sort`. */
  function SortDesc(xs: seq<ChartEntry>): (r: seq<ChartEntry>)
    ensures multiset(r) == multiset(xs)
    ensures NonIncreasing(r)
  {
    if |xs| == 0 then []
    else
      assert xs == [xs[0]] + xs[1..];
      Insert(xs[0], SortDesc(xs[1..]))
  }

  /** Inserting a row whose category precedes all others into a ranked list
      keeps it ranked. */
  lemma {:induction false} InsertRanked(x: ChartEntry, ys: seq<ChartEntry>)
    requires Ranked(ys)
    requires forall k :: 0 <= k < |ys| ==> Ord(x.category) < Ord(ys[k].category)
    ensures Ranked(Insert(x, ys))
  {
    if |ys| > 0 && ys[0].value > x.value {
      InsertRanked(x, ys[1..]);
      var r := Insert(x, ys);
      var tail := Insert(x, ys[1..]);
      assert r == [ys[0]] + tail;
      forall j | 0 < j < |r| ensures Before(r[0], r[j]) {
        HeadBeforeInserted(x, ys, tail, j - 1);
      }
    }
  }

  /** The head of a ranked list is ranked before every row of the insertion
      into its tail, when it is ranked before the inserted row. */
  lemma HeadBeforeInserted(x: ChartEntry, ys: seq<ChartEntry>, tail: seq<ChartEntry>, k: nat)
    requires Ranked(ys) && |ys| > 0 && ys[0].value > x.value
    requires multiset(tail) == multiset(ys[1..]) + multiset{x}
    requires k < |tail|
    ensures Before(ys[0], tail[k])
  {
    assert tail[k] in multiset(tail);
    if tail[k] != x {
      assert tail[k] in multiset(ys[1..]);
      var i :| 0 <= i < |ys[1..]| && ys[1..][i] == tail[k];
      assert ys[i + 1] == tail[k];
    }
  }

  /** Stability: sorting rows given in A..G order ranks equal values by
      category, so the sort output is fully determined. */
  lemma {:induction false} SortRanked(xs: seq<ChartEntry>)
    requires CategoryAscending(xs)
    ensures Ranked(SortDesc(xs))
  {
    if |xs| > 0 {
      SortRanked(xs[1..]);
      var rest := SortDesc(xs[1..]);
      forall k | 0 <= k < |rest| ensures Ord(xs[0].category) < Ord(rest[k].category) {
        assert rest[k] in multiset(xs[1..]);
        var j :| 0 <= j < |xs[1..]| && xs[1..][j] == rest[k];
        assert xs[j + 1] == rest[k];
      }
      InsertRanked(xs[0], rest);
    }
  }

  // ------------------------------------------------- top and bottom three

  /** `topPower`: the first row of the sorted list. */
  function TopPower(sorted: seq<ChartEntry>): ChartEntry
    requires |sorted| > 0
  {
    sorted[0]
  }

  function Subjects(xs: seq<ChartEntry>): (r: seq<string>)
    ensures |r| == |xs| && forall k :: 0 <= k < |xs| ==> r[k] == xs[k].subject
  {
    seq(|xs|, k requires 0 <= k < |xs| => xs[k].subject)
  }

  function Min(a: int, b: int): int { if a < b then a else b }

  function Max(a: int, b: int): int { if a < b then b else a }

  /** `top3Categories`: the subjects of the first min(3, n) sorted rows. */
  function Top3(sorted: seq<ChartEntry>): (r: seq<string>)
    ensures |r| == Min(3, |sorted|)
    ensures forall k :: 0 <= k < |r| ==> r[k] == sorted[k].subject
  {
    Subjects(sorted[..Min(3, |sorted|)])
  }

  /** `bottom3Categories`: the subjects of the sorted rows from index
      max(0, n - 3) to the end. */
  function Bottom3(sorted: seq<ChartEntry>): (r: seq<string>)
    ensures |r| == Min(3, |sorted|)
    ensures forall k :: 0 <= k < |r| ==> r[k] == sorted[|sorted| - |r| + k].subject
  {
    Subjects(sorted[Max(0, |sorted| - 3)..])
  }

  /** The three label styles of `CustomPolarAngleAxisTick`. */
  datatype TickStyle = TopStyle | BottomStyle | DefaultStyle

  /** A label is styled "top" when its subject is among the top three, else
      "bottom" when it is among the bottom three, else plainly. */
  function Tick(subject: string, top3: seq<string>, bottom3: seq<string>): (style: TickStyle)
    ensures style == TopStyle <==> subject in top3
    ensures style == BottomStyle <==> subject !in top3 && subject in bottom3
    ensures style == DefaultStyle <==> subject !in top3 && subject !in bottom3
  {
    if subject in top3 then TopStyle
    else if subject in bottom3 then BottomStyle
    else DefaultStyle
  }

  /** Pairwise different subjects. */
  predicate DistinctSubjects(xs: seq<ChartEntry>) {
    forall i, j :: 0 <= i < j < |xs| ==> xs[i].subject != xs[j].subject
  }

  /** With distinct subjects, the top three and bottom three share a subject
      exactly when there are between one and five rows. */
  lemma TopBottomOverlap(sorted: seq<ChartEntry>)
    requires DistinctSubjects(sorted)
    ensures (exists s :: s in Top3(sorted) && s in Bottom3(sorted)) <==> 1 <= |sorted| <= 5
  {
    var n := |sorted|;
    if 1 <= n <= 5 {
      if n <= 3 {
        assert Top3(sorted)[0] == sorted[0].subject && Bottom3(sorted)[0] == sorted[0].subject;
        assert sorted[0].subject in Top3(sorted) && sorted[0].subject in Bottom3(sorted);
      } else {
        assert Top3(sorted)[2] == sorted[2].subject && Bottom3(sorted)[5 - n] == sorted[2].subject;
        assert sorted[2].subject in Top3(sorted) && sorted[2].subject in Bottom3(sorted);
      }
    } else if n > 5 {
      TopBottomDisjoint(sorted);
    }
  }

  /** With more than five rows and distinct subjects, no subject of the top
      three is among the bottom three. */
  lemma TopBottomDisjoint(sorted: seq<ChartEntry>)
    requires DistinctSubjects(sorted) && |sorted| > 5
    ensures forall s :: s in Top3(sorted) ==> s !in Bottom3(sorted)
  {
    var n := |sorted|;
    forall s | s in Top3(sorted) ensures s !in Bottom3(sorted) {
      var i :| 0 <= i < 3 && Top3(sorted)[i] == s;
      forall k | 0 <= k < 3 ensures Bottom3(sorted)[k] != s {
        assert Bottom3(sorted)[k] == sorted[n - 3 + k].subject;
      }
    }
  }

  // ------------------------------------------------- the result view

  /** The rows of `chartData` come in A..G order. */
  lemma ChartDataAscending(t: map<Category, int>)
    requires forall c :: c in t
    ensures CategoryAscending(ChartData(t))
  {
    var rows := ChartData(t);
    forall k | 0 <= k < |rows| ensures Ord(rows[k].category) == k {
      OrdOfPosition(k);
    }
  }

  lemma OrdOfPosition(k: nat)
    requires k < |AllCategories|
    ensures Ord(AllCategories[k]) == k
  {
  }

  /** Every sorted row is the row of its own category, and no category comes
      twice. */
  lemma SortedRowsFaithful(t: map<Category, int>)
    requires forall c :: c in t
    ensures var sorted := SortDesc(ChartData(t));
      && |sorted| == |AllCategories|
      && Ranked(sorted)
      && (forall k :: 0 <= k < |sorted| ==> sorted[k] == EntryFor(t, sorted[k].category))
      && (forall i, j :: 0 <= i < j < |sorted| ==> sorted[i].category != sorted[j].category)
  {
    var rows := ChartData(t);
    var sorted := SortDesc(rows);
    ChartDataAscending(t);
    SortRanked(rows);
    SortKeepsLength(rows);
    forall k | 0 <= k < |sorted| ensures sorted[k] == EntryFor(t, sorted[k].category) {
      SortedRowFaithful(t, k);
    }
  }

  lemma SortKeepsLength(xs: seq<ChartEntry>)
    ensures |SortDesc(xs)| == |xs|
  {
    assert |SortDesc(xs)| == |multiset(SortDesc(xs))| == |multiset(xs)| == |xs|;
  }

  /** Each sorted row is one of the chart rows, hence the row of its own
      category. */
  lemma SortedRowFaithful(t: map<Category, int>, k: nat)
    requires forall c :: c in t
    requires k < |SortDesc(ChartData(t))|
    ensures SortDesc(ChartData(t))[k] == EntryFor(t, SortDesc(ChartData(t))[k].category)
  {
    var rows := ChartData(t);
    assert SortDesc(rows)[k] in multiset(rows);
    var j :| 0 <= j < |rows| && rows[j] == SortDesc(rows)[k];
  }

  /** Every chart row is somewhere in the sorted list. */
  lemma RowIsSorted(t: map<Category, int>, c: Category) returns (k: nat)
    requires forall c :: c in t
    ensures k < |SortDesc(ChartData(t))| && SortDesc(ChartData(t))[k] == EntryFor(t, c)
  {
    var rows := ChartData(t);
    OrdOfPosition(Ord(c));
    assert rows[Ord(c)] == EntryFor(t, c);
    assert EntryFor(t, c) in multiset(SortDesc(rows));
    k :| 0 <= k < |SortDesc(rows)| && SortDesc(rows)[k] == EntryFor(t, c);
  }

  /** `topPower` carries the highest total, and among the categories with that
      total the first one in A..G order. */
  lemma TopPowerIsMax(t: map<Category, int>, c: Category)
    requires forall c :: c in t
    ensures var top := TopPower(SortDesc(ChartData(t)));
      && top.value == t[top.category]
      && t[c] <= top.value
      && (t[c] == top.value ==> Ord(top.category) <= Ord(c))
  {
    var sorted := SortDesc(ChartData(t));
    SortedRowsFaithful(t);
    var k := RowIsSorted(t, c);
    if k > 0 {
      assert Before(sorted[0], sorted[k]);
    }
  }

  /** On the result screen the labels of the first three sorted rows are
      styled "top", those of the last three "bottom", and the middle one
      plainly. */
  lemma ChartTicks(t: map<Category, int>, k: nat)
    requires forall c :: c in t
    requires k < |SortDesc(ChartData(t))|
    ensures var sorted := SortDesc(ChartData(t));
      var style := Tick(sorted[k].subject, Top3(sorted), Bottom3(sorted));
      && (style == TopStyle <==> k < 3)
      && (style == BottomStyle <==> k >= 4)
      && (style == DefaultStyle <==> k == 3)
  {
    var sorted := SortDesc(ChartData(t));
    SortedRowsFaithful(t);
    forall i, j | 0 <= i < j < |sorted| ensures sorted[i].subject != sorted[j].subject {
      Catalog.SubjectsDistinct(sorted[i].category, sorted[j].category);
    }
    var top3, bottom3 := Top3(sorted), Bottom3(sorted);
    assert |sorted| == 7;
    if k < 3 {
      assert top3[k] == sorted[k].subject;
    } else {
      forall i | 0 <= i < 3 ensures top3[i] != sorted[k].subject {
        assert top3[i] == sorted[i].subject;
      }
      if k >= 4 {
        assert bottom3[k - 4] == sorted[k].subject;
      } else {
        forall i | 0 <= i < 3 ensures bottom3[i] != sorted[k].subject {
          assert bottom3[i] == sorted[i + 4].subject;
        }
      }
    }
  }

  // ------------------------------------------------- uniqueness and a sample

  /** Two ranked lists with the same rows are equal: the sort of the result
      view is determined by its input rows alone. */
  lemma {:induction false} RankedUnique(r1: seq<ChartEntry>, r2: seq<ChartEntry>)
    requires Ranked(r1) && Ranked(r2) && multiset(r1) == multiset(r2)
    ensures r1 == r2
    decreases |r1|
  {
    assert |r1| == |multiset(r1)| == |multiset(r2)| == |r2|;
    if |r1| > 0 {
      RankedFirst(r1, r2);
      var x := r1[0];
      assert r1 == [x] + r1[1..] && r2 == [x] + r2[1..];
      assert multiset(r1[1..]) == multiset(r1) - multiset{x};
      assert multiset(r2[1..]) == multiset(r2) - multiset{x};
      RankedTail(r1);
      RankedTail(r2);
      RankedUnique(r1[1..], r2[1..]);
    }
  }

  /** Two ranked lists with the same rows start with the same row: each
      first row occurs in the other list, and no row is ranked before the
      other list's first. */
  lemma RankedFirst(r1: seq<ChartEntry>, r2: seq<ChartEntry>)
    requires Ranked(r1) && Ranked(r2) && multiset(r1) == multiset(r2)
    requires |r1| > 0 && |r2| > 0
    ensures r1[0] == r2[0]
  {
    var x, y := r1[0], r2[0];
    assert x in multiset(r2);
    assert y in multiset(r1);
    var j :| 0 <= j < |r2| && r2[j] == x;
    var i :| 0 <= i < |r1| && r1[i] == y;
    assert i == 0 || j == 0;
  }

  /** Dropping the first row keeps a list ranked. */
  lemma RankedTail(r: seq<ChartEntry>)
    requires Ranked(r) && |r| > 0
    ensures Ranked(r[1..])
  {
    forall i, j | 0 <= i < j < |r| - 1 ensures Before(r[1..][i], r[1..][j]) {
      assert r[1..][i] == r[i + 1] && r[1..][j] == r[j + 1];
    }
  }

  /** Totals with the sample values A 10, B 5, C 8, D 2, E 9, F 1, G 7. */
  predicate IsSample(t: map<Category, int>) {
    && (forall c :: c in t)
    && t[A] == 10 && t[B] == 5 && t[C] == 8 && t[D] == 2 && t[E] == 9 && t[F] == 1 && t[G] == 7
  }

  /** The ranking of the sample: A, E, C lead (the top three), G is fourth,
      and B, D, F close the list (the bottom three). */
  lemma SampleRanking(t: map<Category, int>)
    requires IsSample(t)
    ensures var sorted := SortDesc(ChartData(t));
      && |sorted| == 7
      && sorted[0].category == A && sorted[1].category == E && sorted[2].category == C && sorted[3].category == G
      && sorted[4].category == B && sorted[5].category == D && sorted[6].category == F
  {
    var sorted := SortDesc(ChartData(t));
    SortedRowsFaithful(t);
    var a := RowIsSorted(t, A);
    var e := RowIsSorted(t, E);
    var c := RowIsSorted(t, C);
    var g := RowIsSorted(t, G);
    var b := RowIsSorted(t, B);
    var d := RowIsSorted(t, D);
    var f := RowIsSorted(t, F);
    SamplePositions(sorted, a, e, c, g, b, d, f);
  }

  /** Seven rows with the sample values, ranked, sit in descending order of
      value. */
  lemma SamplePositions(sorted: seq<ChartEntry>, a: nat, e: nat, c: nat, g: nat, b: nat, d: nat, f: nat)
    requires Ranked(sorted) && |sorted| == 7
    requires a < 7 && e < 7 && c < 7 && g < 7 && b < 7 && d < 7 && f < 7
    requires sorted[a].value == 10 && sorted[e].value == 9 && sorted[c].value == 8 && sorted[g].value == 7
    requires sorted[b].value == 5 && sorted[d].value == 2 && sorted[f].value == 1
    requires sorted[a].category == A && sorted[e].category == E && sorted[c].category == C && sorted[g].category == G
    requires sorted[b].category == B && sorted[d].category == D && sorted[f].category == F
    ensures sorted[0].category == A && sorted[1].category == E && sorted[2].category == C && sorted[3].category == G
    ensures sorted[4].category == B && sorted[5].category == D && sorted[6].category == F
  {
    HigherComesFirst(sorted, a, e);
    HigherComesFirst(sorted, e, c);
    HigherComesFirst(sorted, c, g);
    HigherComesFirst(sorted, g, b);
    HigherComesFirst(sorted, b, d);
    HigherComesFirst(sorted, d, f);
  }

  /** In a ranked list a row with a higher value comes first. */
  lemma HigherComesFirst(xs: seq<ChartEntry>, i: nat, j: nat)
    requires Ranked(xs) && i < |xs| && j < |xs|
    requires xs[i].value > xs[j].value
    ensures i < j
  {
  }
}

=== FILE: report.dfy ===
/** The coaching report of `App.tsx`: the text stored when a request to the
    text-generation service ends, and the line classifier that turns the
    stored text into headings, list items, spacers and paragraphs. */
module Report {
  import opened Strings

  /** How a request to the text-generation service ended. `Succeeded("")`
      stands for a response whose text is empty or missing. */
  datatype Outcome = Succeeded(text: string) | Failed

  /** Stored when the service answers with no text. */
  const CannotGenerate: string := "분석 결과를 생성할 수 없습니다."

  /** Stored when the request fails for any reason. */
  const ServiceDelayed: string :=
    "현재 AI 분석 서비스가 일시적으로 지연되고 있습니다. 결과 상단의 점수와 차트를 중심으로 자신의 리더십 스타일을 먼저 확인해 주세요."

  /** The report text a finished request stores: the returned text, the
      "cannot generate" sentence for an empty text, the fixed apology for a
      failure. */
  function ReportText(o: Outcome): (text: string)
    ensures text != ""
    ensures o.Failed? ==> text == ServiceDelayed
    ensures o.Succeeded? && o.text == "" ==> text == CannotGenerate
    ensures o.Succeeded? && o.text != "" ==> text == o.text
  {
    match o
    case Succeeded(t) => if t != "" then t else CannotGenerate
    case Failed => ServiceDelayed
  }

  // ------------------------------------------------------- line classifier

  /** The rendered block of one line. */
  datatype Block =
    | Heading1(text: string)
    | Heading2(text: string)
    | Heading3(text: string)
    | ListItem(text: string)
    | Spacer
    | Paragraph(text: string)

  /** `line.replace(/^[-*]\s/, '')`: drops a leading '-' or '*' together with
      the whitespace character after it. */
  function StripListMarker(line: string): (r: string)
    ensures r == line || (|line| >= 2 && r == line[2..])
    ensures StartsWith(line, "- ") || StartsWith(line, "* ") ==> r == line[2..]
  {
    if |line| >= 2 && (line[0] == '-' || line[0] == '*') && IsWhitespace(line[1]) then line[2..] else line
  }

  /** The classifier of one line, with the checks in the order of the
      source: "# ", "## ", "### ", "- " or "* ", whitespace only, anything
      else. */
  function ClassifyLine(line: string): Block {
    if StartsWith(line, "# ") then Heading1(RemoveFirst(line, "# "))
    else if StartsWith(line, "## ") then Heading2(RemoveFirst(line, "## "))
    else if StartsWith(line, "### ") then Heading3(RemoveFirst(line, "### "))
    else if StartsWith(line, "- ") || StartsWith(line, "* ") then ListItem(StripListMarker(line))
    else if Trim(line) == "" then Spacer
    else Paragraph(line)
  }

  /** `aiReport.split('\n').map(...)`: one block per line of the text. */
  function FormatReport(text: string): (blocks: seq<Block>)
    ensures |blocks| == |Split(text, '\n')|
    ensures forall k :: 0 <= k < |blocks| ==> blocks[k] == ClassifyLine(Split(text, '\n')[k])
  {
    var lines := Split(text, '\n');
    seq(|lines|, k requires 0 <= k < |lines| => ClassifyLine(lines[k]))
  }

  // ------------------------------------------------------------ lemmas

  /** A line starting with `marker` is the marker followed by the rest. */
  lemma MarkerSplit(line: string, marker: string, t: string)
    ensures line == marker + t <==> StartsWith(line, marker) && line[|marker|..] == t
  {
    if line == marker + t {
      assert line[..|marker|] == marker && line[|marker|..] == t;
    }
    if StartsWith(line, marker) {
      assert line == line[..|marker|] + line[|marker|..];
    }
  }

  /** The markers exclude each other, and no line carrying one of them is
      whitespace only; so the order of the checks never decides the result. */
  lemma MarkersExclusive(line: string)
    ensures StartsWith(line, "# ") ==> !StartsWith(line, "## ") && !StartsWith(line, "### ")
    ensures StartsWith(line, "## ") ==> !StartsWith(line, "### ")
    ensures (StartsWith(line, "# ") || StartsWith(line, "## ") || StartsWith(line, "### ")) ==>
      !StartsWith(line, "- ") && !StartsWith(line, "* ")
    ensures (|| StartsWith(line, "# ") || StartsWith(line, "## ") || StartsWith(line, "### ")
             || StartsWith(line, "- ") || StartsWith(line, "* ")) ==> !AllWhitespace(line)
  {
    if StartsWith(line, "# ") { assert line[1] == ' '; }
    if StartsWith(line, "## ") { assert line[1] == '#' && line[2] == ' '; }
    if |line| > 0 { assert line[0] == line[..1][0]; }
  }

  /** A line classifies as a level-1 heading with text `t` exactly when it is
      "# " followed by `t`. */
  lemma Heading1Iff(line: string, t: string)
    ensures ClassifyLine(line) == Heading1(t) <==> line == "# " + t
  {
    MarkerSplit(line, "# ", t);
  }

  /** The same for "## " and level-2 headings. */
  lemma Heading2Iff(line: string, t: string)
    ensures ClassifyLine(line) == Heading2(t) <==> line == "## " + t
  {
    MarkerSplit(line, "## ", t);
    MarkersExclusive(line);
  }

  /** The same for "### " and level-3 headings. */
  lemma Heading3Iff(line: string, t: string)
    ensures ClassifyLine(line) == Heading3(t) <==> line == "### " + t
  {
    MarkerSplit(line, "### ", t);
    MarkersExclusive(line);
  }

  /** A line classifies as a list item with text `t` exactly when it is "- "
      or "* " followed by `t`. */
  lemma ListItemIff(line: string, t: string)
    ensures ClassifyLine(line) == ListItem(t) <==> line == "- " + t || line == "* " + t
  {
    MarkerSplit(line, "- ", t);
    MarkerSplit(line, "* ", t);
    MarkersExclusive(line);
    if StartsWith(line, "- ") || StartsWith(line, "* ") {
      assert line[1] == line[..2][1] == ' ';
    }
  }

  /** A line classifies as a spacer exactly when it is whitespace only. */
  lemma SpacerIff(line: string)
    ensures ClassifyLine(line) == Spacer <==> AllWhitespace(line)
  {
    MarkersExclusive(line);
    TrimEmptyIffAllWhitespace(line);
  }

  /** Every other line is a paragraph holding the line verbatim. */
  lemma ParagraphIff(line: string, t: string)
    ensures ClassifyLine(line) == Paragraph(t) <==>
      && t == line
      && !StartsWith(line, "# ") && !StartsWith(line, "## ") && !StartsWith(line, "### ")
      && !StartsWith(line, "- ") && !StartsWith(line, "* ")
      && !AllWhitespace(line)
  {
    TrimEmptyIffAllWhitespace(line);
  }

  /** A line consisting of "- " alone is an empty list item, not a spacer. */
  lemma DashAloneIsListItem()
    ensures ClassifyLine("- ") == ListItem("")
  {
    assert "- " == "- " + "";
    ListItemIff("- ", "");
  }

  /** The report has one block per line: one more than the number of line
      breaks, and the lines joined back with '\n' are the text. */
  lemma FormatReportLines(text: string)
    ensures |FormatReport(text)| == Count(text, '\n') + 1
    ensures Join(Split(text, '\n'), '\n') == text
  {
    SplitJoin(text, '\n');
  }
}

=== FILE: scores.dfy ===
/** The score state of `App.tsx`: its initial value, the answer-change
    transition `handleScoreChange`, and the invariant that every entry splits
    exactly 3 points between its two sides. */
module Scores {
  import opened Types
  import Catalog

  /** An entry holds two values in 0..3 that add up to 3. */
  predicate ValidPair(p: ScorePair) {
    0 <= p.scoreA <= 3 && 0 <= p.scoreB <= 3 && p.scoreA + p.scoreB == 3
  }

  /** The invariant of the score state for a list of questions: exactly one
      entry per question id, and every entry valid. */
  predicate WellFormed(qs: seq<QuestionPair>, s: ScoreState) {
    s.Keys == Catalog.Ids(qs) && forall id :: id in s ==> ValidPair(s[id])
  }

  /** The initial state: `forEach` over the questions, setting the entry of
      each id to the balanced split (1, 2). */
  function InitialScores(qs: seq<QuestionPair>): (s: ScoreState)
    ensures s.Keys == Catalog.Ids(qs)
    ensures forall id :: id in s ==> s[id] == ScorePair(1, 2)
  {
    if |qs| == 0 then map[]
    else
      var q := qs[|qs| - 1];
      assert Catalog.Ids(qs) == Catalog.Ids(qs[..|qs| - 1]) + {q.id} by {
        forall id | id in Catalog.Ids(qs) ensures id in Catalog.Ids(qs[..|qs| - 1]) + {q.id} {
          var k :| 0 <= k < |qs| && qs[k].id == id;
          if k < |qs| - 1 { assert qs[..|qs| - 1][k] == qs[k]; }
        }
      }
      InitialScores(qs[..|qs| - 1])[q.id := ScorePair(1, 2)]
  }

  /** `handleScoreChange(id, valA)`: the entry for `id` becomes
      (valA, 3 - valA), created if absent; the value is not range-checked. */
  function SetAnswer(s: ScoreState, id: int, valA: int): (r: ScoreState)
    ensures r.Keys == s.Keys + {id}
    ensures r[id].scoreA == valA && r[id].scoreA + r[id].scoreB == 3
    ensures forall other :: other in s && other != id ==> r[other] == s[other]
  {
    s[id := ScorePair(valA, 3 - valA)]
  }

  /** The side a button of the survey stands for, or the slider position. */
  datatype Choice = PickA | PickB | Slide(position: int)

  /** The value the survey passes to `handleScoreChange`: 3 for the A button,
      0 for the B button, the slider position for the slider. */
  function ChoiceValue(ch: Choice): int {
    match ch
    case PickA => 3
    case PickB => 0
    case Slide(v) => v
  }

  /** Side A of an entry is highlighted when its score exceeds 1.5. */
  predicate HighlightA(p: ScorePair) {
    p.scoreA as real > 1.5
  }

  /** Side B of an entry is highlighted when its score exceeds 1.5. */
  predicate HighlightB(p: ScorePair) {
    p.scoreB as real > 1.5
  }

  // ------------------------------------------------------------ lemmas

  /** The initial state satisfies the invariant. */
  lemma InitialWellFormed(qs: seq<QuestionPair>)
    ensures WellFormed(qs, InitialScores(qs))
  {
  }

  /** An answer keeps the entry valid exactly when the value is in 0..3. */
  lemma SetAnswerValidIff(s: ScoreState, id: int, valA: int)
    ensures ValidPair(SetAnswer(s, id, valA)[id]) <==> 0 <= valA <= 3
  {
  }

  /** An answer for a known question with a value in 0..3 preserves the
      invariant. */
  lemma SetAnswerPreserves(qs: seq<QuestionPair>, s: ScoreState, id: int, valA: int)
    requires WellFormed(qs, s)
    requires id in Catalog.Ids(qs) && 0 <= valA <= 3
    ensures WellFormed(qs, SetAnswer(s, id, valA))
  {
  }

  /** An answer for an id outside the question list adds a key and breaks the
      invariant. */
  lemma SetAnswerUnknownId(qs: seq<QuestionPair>, s: ScoreState, id: int, valA: int)
    requires WellFormed(qs, s) && id !in Catalog.Ids(qs)
    ensures !WellFormed(qs, SetAnswer(s, id, valA))
  {
    assert id in SetAnswer(s, id, valA).Keys;
  }

  /** Setting the same answer twice is the same as setting it once. */
  lemma SetAnswerIdempotent(s: ScoreState, id: int, valA: int)
    ensures SetAnswer(SetAnswer(s, id, valA), id, valA) == SetAnswer(s, id, valA)
  {
  }

  /** Every choice the survey offers lies in 0..3 when the slider does; the
      buttons select the extremes. */
  lemma ChoiceInRange(ch: Choice)
    ensures 0 <= ChoiceValue(ch) <= 3 <==> (ch.Slide? ==> 0 <= ch.position <= 3)
    ensures ch == PickA ==> ChoiceValue(ch) == 3
    ensures ch == PickB ==> ChoiceValue(ch) == 0
  {
  }

  /** For a valid entry exactly one of the two sides is highlighted. */
  lemma ExactlyOneHighlighted(p: ScorePair)
    requires ValidPair(p)
    ensures HighlightA(p) != HighlightB(p)
    ensures HighlightA(p) <==> p.scoreA >= 2
  {
  }
}

=== FILE: session.dfy ===
/** The session of `App.tsx` as a state machine: the screen phase, the
    score state, the stored report text, the "analyzing" flag, and the
    requests to the text-generation service still outstanding. Each user
    action and each completion of a request is one event. */
module Session {
  import opened Types
  import Catalog
  import Scores
  import Totals
  import Ranking
  import Report

  datatype Phase = Intro | Survey | Result

  /** `pending` counts the requests started and not yet completed; the
      source keeps no such counter, it only makes the interleavings of
      overlapping requests visible. */
  datatype State = State(phase: Phase, scores: ScoreState, report: string, analyzing: bool, pending: nat)

  datatype Event =
    | Begin                               // "start" button on the intro screen
    | Answer(id: int, choice: Scores.Choice) // a button or the slider of one question
    | ShowResult                          // either "show result" button of the survey
    | Regenerate                          // "analyse again" button, disabled while analyzing
    | Restart                             // "diagnose again" button of the result screen
    | Complete(outcome: Report.Outcome)   // a request to the service ends

  /** The state on load: intro screen, the initial scores, no report. */
  function Init(): (s: State)
    ensures s.phase == Intro && s.report == "" && !s.analyzing && s.pending == 0
    ensures s.scores == Scores.InitialScores(Catalog.Questions)
    ensures Scores.WellFormed(Catalog.Questions, s.scores)
  {
    Scores.InitialWellFormed(Catalog.Questions);
    State(Intro, Scores.InitialScores(Catalog.Questions), "", false, 0)
  }

  /** `generateAIReport` up to its first suspension: set the flag, clear the
      report, and send the request. */
  function StartRequest(s: State): (r: State)
    ensures r.analyzing && r.report == "" && r.pending == s.pending + 1
    ensures r.phase == s.phase && r.scores == s.scores
  {
    s.(analyzing := true, report := "", pending := s.pending + 1)
  }

  /** One event. `None` when the event cannot occur in the state: its button
      is not on screen or is disabled, or no request is outstanding. */
  function Step(s: State, e: Event): (r: Option<State>)
    ensures r.Some? ==> r.value.scores == s.scores || e.Answer?
    // the phase moves only intro -> survey -> result -> intro
    ensures r.Some? ==>
      || r.value.phase == s.phase
      || (e.Begin? && s.phase == Intro && r.value.phase == Survey)
      || (e.ShowResult? && s.phase == Survey && r.value.phase == Result)
      || (e.Restart? && s.phase == Result && r.value.phase == Intro)
    // which screen offers each event
    ensures e.Begin? ==> (r.Some? <==> s.phase == Intro)
    ensures e.Answer? ==> (r.Some? <==> s.phase == Survey)
    ensures e.ShowResult? ==> (r.Some? <==> s.phase == Survey)
    ensures e.Regenerate? ==> (r.Some? <==> s.phase == Result && !s.analyzing)
    ensures e.Restart? ==> (r.Some? <==> s.phase == Result)
    ensures e.Complete? ==> (r.Some? <==> s.pending > 0)
    ensures e.Begin? && r.Some? ==> r.value == s.(phase := Survey)
    ensures e.Answer? && r.Some? ==>
      r.value == s.(scores := Scores.SetAnswer(s.scores, e.id, Scores.ChoiceValue(e.choice)))
    // "analyse again" sets the flag, clears the report and sends a request
    ensures e.Regenerate? && r.Some? ==>
      r.value == s.(analyzing := true, report := "", pending := s.pending + 1)
  {
    match e
    case Begin =>
      if s.phase == Intro then Some(s.(phase := Survey)) else None
    case Answer(id, choice) =>
      if s.phase == Survey then Some(s.(scores := Scores.SetAnswer(s.scores, id, Scores.ChoiceValue(choice))))
      else None
    case ShowResult =>
      // entering the result screen triggers the effect that requests a report
      if s.phase == Survey then Some(StartRequest(s.(phase := Result))) else None
    case Regenerate =>
      if s.phase == Result && !s.analyzing then Some(StartRequest(s)) else None
    case Restart =>
      if s.phase == Result then Some(s.(phase := Intro, report := "")) else None
    case Complete(o) =>
      if s.pending > 0 then Some(s.(report := Report.ReportText(o), analyzing := false, pending := s.pending - 1))
      else None
  }

  /** Runs events in order; `None` as soon as one of them cannot occur. */
  function Run(s: State, es: seq<Event>): Option<State>
    decreases |es|
  {
    if |es| == 0 then Some(s)
    else match Step(s, es[0])
      case None => None
      case Some(s') => Run(s', es[1..])
  }

  /** The events the screens can produce: answers name a catalog question and
      a slider position lies in 0..3. */
  predicate FromScreen(e: Event) {
    e.Answer? ==> e.id in Catalog.Ids(Catalog.Questions)
                  && (e.choice.Slide? ==> 0 <= e.choice.position <= 3)
  }

  /** The state invariant. */
  predicate Inv(s: State) {
    && Scores.WellFormed(Catalog.Questions, s.scores)
    && (s.analyzing ==> s.report == "" && s.pending > 0)
    && (s.phase == Result && !s.analyzing ==> s.report != "")
  }

  /** What the report area of the result screen shows. */
  datatype ReportView = Loading | Formatted(blocks: seq<Report.Block>) | Unavailable

  function ViewOf(s: State): ReportView {
    if s.analyzing then Loading
    else if s.report != "" then Formatted(Report.FormatReport(s.report))
    else Unavailable
  }

  // ------------------------------------------------------------ lemmas

  lemma InitInv()
    ensures Inv(Init())
  {
  }

  /** Every event the screens can produce preserves the invariant. */
  lemma StepInv(s: State, e: Event)
    requires Inv(s) && FromScreen(e)
    requires Step(s, e).Some?
    ensures Inv(Step(s, e).value)
  {
    if e.Answer? {
      Scores.ChoiceInRange(e.choice);
      Scores.SetAnswerPreserves(Catalog.Questions, s.scores, e.id, Scores.ChoiceValue(e.choice));
    }
  }

  /** Hence in every state reachable from the initial one. */
  lemma {:induction false} RunInv(s: State, es: seq<Event>)
    requires Inv(s)
    requires forall k :: 0 <= k < |es| ==> FromScreen(es[k])
    requires Run(s, es).Some?
    ensures Inv(Run(s, es).value)
    decreases |es|
  {
    if |es| > 0 {
      var s' := Step(s, es[0]).value;
      StepInv(s, es[0]);
      RunInv(s', es[1..]);
    }
  }

  /** The result screen never shows the "could not fetch" placeholder: it
      shows the loading state or a formatted report. */
  lemma ResultNeverUnavailable(s: State)
    requires Inv(s) && s.phase == Result
    ensures ViewOf(s) != Unavailable
  {
  }

  /** Entering the result screen starts a request: the flag is set and the
      report cleared. */
  lemma ShowResultStartsRequest(s: State)
    requires s.phase == Survey
    ensures Step(s, ShowResult) == Some(s.(phase := Result, analyzing := true, report := "", pending := s.pending + 1))
  {
  }

  /** "Analyse again" on a settled result screen starts a new request: the
      flag is set and the report cleared, the rest is kept. */
  lemma RegenerateStartsRequest(s: State)
    requires s.phase == Result && !s.analyzing
    ensures Step(s, Regenerate) == Some(s.(analyzing := true, report := "", pending := s.pending + 1))
  {
  }

  /** Restart returns to the intro screen and clears the report but keeps the
      answers given so far, as well as any outstanding request. */
  lemma RestartKeepsScores(s: State)
    requires s.phase == Result
    ensures Step(s, Restart).Some?
    ensures Step(s, Restart).value.phase == Intro && Step(s, Restart).value.report == ""
    ensures Step(s, Restart).value.scores == s.scores
    ensures Step(s, Restart).value.analyzing == s.analyzing
    ensures Step(s, Restart).value.pending == s.pending
  {
  }

  /** A completion stores the outcome's text, clears the flag and retires one
      request; phase and scores stay as they are. */
  lemma CompleteStores(s: State, o: Report.Outcome)
    requires s.pending > 0
    ensures Step(s, Complete(o)) == Some(s.(report := Report.ReportText(o), analyzing := false, pending := s.pending - 1))
    ensures o.Succeeded? && o.text != "" ==> Step(s, Complete(o)).value.report == o.text
    ensures o.Failed? ==> Step(s, Complete(o)).value.report == Report.ServiceDelayed
    ensures o == Report.Succeeded("") ==> Step(s, Complete(o)).value.report == Report.CannotGenerate
  {
  }

  /** A request that completes after a restart leaves its text on the intro
      screen, and the completion of the first of two overlapping requests
      clears the flag while the second is still outstanding. */
  lemma LateCompletion()
    ensures var es := [Begin, ShowResult, Restart, Complete(Report.Failed)];
      && Run(Init(), es).Some?
      && Run(Init(), es).value.phase == Intro
      && Run(Init(), es).value.report == Report.ServiceDelayed
    ensures var es := [Begin, ShowResult, Restart, Begin, ShowResult, Complete(Report.Failed)];
      && Run(Init(), es).Some?
      && Run(Init(), es).value.phase == Result
      && !Run(Init(), es).value.analyzing
      && Run(Init(), es).value.pending == 1
  {
    var s0 := Init();
    var s1 := s0.(phase := Survey);
    var s2 := StartRequest(s1.(phase := Result));
    var s3 := s2.(phase := Intro, report := "");
    var s4 := s3.(report := Report.ServiceDelayed, analyzing := false, pending := 0);
    assert Run(s4, []) == Some(s4);
    assert Run(s3, [Complete(Report.Failed)]) == Some(s4);
    assert Run(s2, [Restart, Complete(Report.Failed)]) == Some(s4);
    assert Run(s1, [ShowResult, Restart, Complete(Report.Failed)]) == Some(s4);
    var t4 := s3.(phase := Survey);
    var t5 := StartRequest(t4.(phase := Result));
    var t6 := t5.(report := Report.ServiceDelayed, analyzing := false, pending := 1);
    assert Run(t6, []) == Some(t6);
    assert Run(t5, [Complete(Report.Failed)]) == Some(t6);
    assert Run(t4, [ShowResult, Complete(Report.Failed)]) == Some(t6);
    assert Run(s3, [Begin, ShowResult, Complete(Report.Failed)]) == Some(t6);
    assert Run(s2, [Restart, Begin, ShowResult, Complete(Report.Failed)]) == Some(t6);
    assert Run(s1, [ShowResult, Restart, Begin, ShowResult, Complete(Report.Failed)]) == Some(t6);
  }

  /** What the result screen shows for a state satisfying the invariant: the
      seven totals add up to 63 and lie in 0..21, and the top power carries
      the highest of them. */
  lemma ResultFacts(s: State, c: Category)
    requires Inv(s)
    ensures Totals.Covers(Catalog.Questions, s.scores)
    ensures var t := Totals.CategoryTotals(Catalog.Questions, s.scores);
      && Totals.SumOf(t) == 63
      && 0 <= t[c] <= 21
      && t[c] <= Ranking.TopPower(Ranking.SortDesc(Ranking.ChartData(t))).value
  {
    Totals.WellFormedCovers(Catalog.Questions, s.scores);
    Totals.CatalogTotals(s.scores, c);
    Ranking.TopPowerIsMax(Totals.CategoryTotals(Catalog.Questions, s.scores), c);
  }
}

=== FILE: strings.dfy ===
/** The few JavaScript string operations the application relies on:
    `startsWith`, `split` (by a one-character separator, and the first piece
    of a split by a string separator), `replace` of the first occurrence of a
    string by the empty string, `trim`, and the `\s` class of regular
    expressions. Strings are sequences of Unicode characters. */
module Strings {

  predicate StartsWith(s: string, prefix: string) {
    |prefix| <= |s| && s[..|prefix|] == prefix
  }

  /** The characters ECMAScript counts as WhiteSpace or LineTerminator: what
      `trim` removes and what `\s` matches. */
  predicate IsWhitespace(ch: char) {
    || ch == '\t' || ch == '\n' || ch == '\U{000B}' || ch == '\U{000C}' || ch == '\r'
    || ch == ' ' || ch == '\U{00A0}' || ch == '\U{1680}'
    || ('\U{2000}' <= ch <= '\U{200A}')
    || ch == '\U{2028}' || ch == '\U{2029}' || ch == '\U{202F}' || ch == '\U{205F}'
    || ch == '\U{3000}' || ch == '\U{FEFF}'
  }

  predicate AllWhitespace(s: string) {
    forall i :: 0 <= i < |s| ==> IsWhitespace(s[i])
  }

  // ---------------------------------------------------------------- trim

  function TrimStart(s: string): (r: string)
    ensures |r| <= |s| && r == s[|s| - |r|..]
    ensures |r| > 0 ==> !IsWhitespace(r[0])
    ensures forall i :: 0 <= i < |s| - |r| ==> IsWhitespace(s[i])
  {
    if |s| > 0 && IsWhitespace(s[0]) then TrimStart(s[1..]) else s
  }

  function TrimEnd(s: string): (r: string)
    ensures |r| <= |s| && r == s[..|r|]
    ensures |r| > 0 ==> !IsWhitespace(r[|r| - 1])
    ensures forall i :: |r| <= i < |s| ==> IsWhitespace(s[i])
  {
    if |s| > 0 && IsWhitespace(s[|s| - 1]) then TrimEnd(s[..|s| - 1]) else s
  }

  /** `String.prototype.trim`. */
  function Trim(s: string): string {
    TrimEnd(TrimStart(s))
  }

  /** A string trims to the empty string exactly when every character of it is
      whitespace. */
  lemma TrimEmptyIffAllWhitespace(s: string)
    ensures Trim(s) == "" <==> AllWhitespace(s)
  {
    var t := TrimStart(s);
    assert forall i :: 0 <= i < |t| ==> t[i] == s[|s| - |t| + i];
  }

  // --------------------------------------------------------------- split

  /** `s.split(sep)` for a one-character separator: the pieces between the
      occurrences of `sep`, in order; always at least one piece. */
  function Split(s: string, sep: char): (parts: seq<string>)
    ensures |parts| >= 1
  {
    if |s| == 0 then [""]
    else
      var rest := Split(s[1..], sep);
      if s[0] == sep then [""] + rest else [[s[0]] + rest[0]] + rest[1..]
  }

  /** `parts.join(sep)` for a non-empty array. */
  function Join(parts: seq<string>, sep: char): string
    requires |parts| >= 1
  {
    if |parts| == 1 then parts[0] else parts[0] + [sep] + Join(parts[1..], sep)
  }

  function Count(s: string, ch: char): nat {
    if |s| == 0 then 0 else (if s[0] == ch then 1 else 0) + Count(s[1..], ch)
  }

  /** Splitting yields one more piece than there are separators, no piece
      contains the separator, and joining the pieces gives back the string. */
  lemma {:induction false} SplitJoin(s: string, sep: char)
    ensures |Split(s, sep)| == Count(s, sep) + 1
    ensures forall k :: 0 <= k < |Split(s, sep)| ==> sep !in Split(s, sep)[k]
    ensures Join(Split(s, sep), sep) == s
  {
    if |s| > 0 {
      var rest := Split(s[1..], sep);
      SplitJoin(s[1..], sep);
      if s[0] == sep {
        assert Split(s, sep)[1..] == rest;
        assert [s[0]] + s[1..] == s;
      } else {
        var parts := Split(s, sep);
        assert parts[0] == [s[0]] + rest[0];
        forall k | 0 <= k < |parts|
          ensures sep !in parts[k]
        {
          if k > 0 { assert parts[k] == rest[k]; }
        }
        if |rest| > 1 {
          assert parts[1..] == rest[1..];
          assert Join(rest, sep) == rest[0] + [sep] + Join(rest[1..], sep);
        }
        assert [s[0]] + s[1..] == s;
      }
    }
  }

  /** The converse round trip: pieces that do not contain the separator are
      recovered by splitting their join. */
  lemma {:induction false} JoinSplit(parts: seq<string>, sep: char)
    requires |parts| >= 1
    requires forall k :: 0 <= k < |parts| ==> sep !in parts[k]
    ensures Split(Join(parts, sep), sep) == parts
  {
    if |parts| == 1 {
      NoSeparatorOnePiece(parts[0], sep);
    } else {
      JoinSplit(parts[1..], sep);
      SplitAppend(parts[0], Join(parts[1..], sep), sep);
      assert [parts[0]] + parts[1..] == parts;
    }
  }

  lemma {:induction false} NoSeparatorOnePiece(s: string, sep: char)
    requires sep !in s
    ensures Split(s, sep) == [s]
  {
    if |s| > 0 {
      NoSeparatorOnePiece(s[1..], sep);
      assert [s[0]] + s[1..] == s;
    }
  }

  lemma {:induction false} SplitAppend(p: string, t: string, sep: char)
    requires sep !in p
    ensures Split(p + [sep] + t, sep) == [p] + Split(t, sep)
  {
    if |p| == 0 {
      assert p + [sep] + t == [sep] + t;
      assert ([sep] + t)[1..] == t;
    } else {
      SplitAppend(p[1..], t, sep);
      var x := p + [sep] + t;
      assert x[1..] == p[1..] + [sep] + t;
      assert [p[0]] + p[1..] == p;
    }
  }

  // ---------------------------------------------- first piece of a split

  /** `s.split(sep)[0]` for a non-empty separator: everything before the first
      occurrence of `sep`, or all of `s` when it does not occur. */
  function BeforeFirst(s: string, sep: string): (r: string)
    requires |sep| > 0
    ensures |r| <= |s| && r == s[..|r|]
    ensures r == s || StartsWith(s[|r|..], sep)
    decreases |s|
  {
    if |s| < |sep| then s
    else if StartsWith(s, sep) then ""
    else
      var r := [s[0]] + BeforeFirst(s[1..], sep);
      assert s[|r|..] == s[1..][|r| - 1..];
      r
  }

  /** No occurrence of `sep` starts inside the result. */
  lemma {:induction false} BeforeFirstIsFirst(s: string, sep: string, i: nat)
    requires |sep| > 0
    requires i < |BeforeFirst(s, sep)|
    ensures !StartsWith(s[i..], sep)
    decreases |s|
  {
    if i > 0 {
      BeforeFirstIsFirst(s[1..], sep, i - 1);
      assert s[1..][i - 1..] == s[i..];
    }
  }

  /** For a separator " (" and a head that holds no '(', the first piece of
      `head + " (" + tail` is `head`. */
  lemma {:induction false} BeforeParen(head: string, tail: string)
    requires '(' !in head
    ensures BeforeFirst(head + " (" + tail, " (") == head
  {
    var x := head + " (" + tail;
    if |head| > 0 {
      assert !StartsWith(x, " (") by {
        if |head| == 1 { assert x[1] == ' '; } else { assert x[1] == head[1]; }
      }
      assert x[1..] == head[1..] + " (" + tail;
      BeforeParen(head[1..], tail);
    }
  }

  // ------------------------------------------------ replace with nothing

  /** `s.replace(pattern, '')` with a string pattern: removes the first
      occurrence of `pattern`, if any (RemoveFirstNone, RemoveFirstAt). */
  function RemoveFirst(s: string, pattern: string): (r: string)
    ensures |r| == |s| || |r| == |s| - |pattern|
    ensures StartsWith(s, pattern) ==> r == s[|pattern|..]
    decreases |s|
  {
    if StartsWith(s, pattern) then s[|pattern|..]
    else if |s| == 0 then s
    else [s[0]] + RemoveFirst(s[1..], pattern)
  }

  /** Without an occurrence of `pattern`, nothing is removed. */
  lemma {:induction false} RemoveFirstNone(s: string, pattern: string)
    requires forall i :: 0 <= i <= |s| ==> !StartsWith(s[i..], pattern)
    ensures RemoveFirst(s, pattern) == s
    decreases |s|
  {
    assert s[0..] == s;
    if |s| > 0 {
      var t := s[1..];
      forall i | 0 <= i <= |t| ensures !StartsWith(t[i..], pattern) {
        assert t[i..] == s[i + 1..];
      }
      RemoveFirstNone(t, pattern);
    }
  }

  /** With its first occurrence at `i`, exactly that occurrence is removed. */
  lemma {:induction false} RemoveFirstAt(s: string, pattern: string, i: nat)
    requires i <= |s| && StartsWith(s[i..], pattern)
    requires forall j :: 0 <= j < i ==> !StartsWith(s[j..], pattern)
    ensures i + |pattern| <= |s|
    ensures RemoveFirst(s, pattern) == s[..i] + s[i + |pattern|..]
    decreases i
  {
    assert s[0..] == s;
    if i > 0 {
      var t := s[1..];
      assert t[i - 1..] == s[i..];
      forall j | 0 <= j < i - 1 ensures !StartsWith(t[j..], pattern) {
        assert t[j..] == s[j + 1..];
      }
      RemoveFirstAt(t, pattern, i - 1);
      assert s[..i] == [s[0]] + t[..i - 1];
      assert s[i + |pattern|..] == t[i - 1 + |pattern|..];
    }
  }
}

=== FILE: totals.dfy ===
/** The aggregator `categoryTotals` of `App.tsx`: the per-category sums of
    the score state over the questions, the loop that computes them, and
    their bounds. */
module Totals {
  import opened Types
  import Catalog
  import Scores

  /** The per-category totals record. */
  type Totals = map<Category, int>

  /** Every question of the list has an entry in the score state, so the
      lookups `scores[q.id]` succeed. */
  predicate Covers(qs: seq<QuestionPair>, s: ScoreState) {
    forall k :: 0 <= k < |qs| ==> qs[k].id in s
  }

  /** What one question adds to the total of `c`: its A score when side A is
      `c`, plus its B score when side B is `c`. */
  function Contribution(q: QuestionPair, s: ScoreState, c: Category): int
    requires q.id in s
  {
    (if q.catA == c then s[q.id].scoreA else 0) + (if q.catB == c then s[q.id].scoreB else 0)
  }

  /** The total of `c` over the first `n` questions. */
  function TotalIn(qs: seq<QuestionPair>, s: ScoreState, n: nat, c: Category): int
    requires n <= |qs| && Covers(qs, s)
  {
    if n == 0 then 0 else TotalIn(qs, s, n - 1, c) + Contribution(qs[n - 1], s, c)
  }

  /** The total of `c` over all questions. */
  function Total(qs: seq<QuestionPair>, s: ScoreState, c: Category): int
    requires Covers(qs, s)
  {
    TotalIn(qs, s, |qs|, c)
  }

  /** The totals record the result view reads. */
  function CategoryTotals(qs: seq<QuestionPair>, s: ScoreState): (t: Totals)
    requires Covers(qs, s)
    ensures forall c :: c in t && t[c] == Total(qs, s, c)
  {
    AllCategoriesComplete();
    map c | c in AllCategories :: Total(qs, s, c)
  }

  /** The sum of the seven totals of a record. */
  function SumOf(t: Totals): int
    requires forall c :: c in t
  {
    t[A] + t[B] + t[C] + t[D] + t[E] + t[F] + t[G]
  }

  /** The loop of `categoryTotals`: start every category at 0, then for each
      question in order add its A score to the total of `catA` and its B
      score to the total of `catB`. */
  method ComputeTotals(qs: seq<QuestionPair>, s: ScoreState) returns (t: Totals)
    requires Covers(qs, s)
    ensures forall c :: c in t && t[c] == Total(qs, s, c)
  {
    t := map[A := 0, B := 0, C := 0, D := 0, E := 0, F := 0, G := 0];
    AllCategoriesComplete();
    assert forall c :: c in AllCategories ==> c in t;
    var i := 0;
    while i < |qs|
      invariant 0 <= i <= |qs|
      invariant forall c :: c in t && t[c] == TotalIn(qs, s, i, c)
    {
      var q := qs[i];
      t := t[q.catA := t[q.catA] + s[q.id].scoreA];
      t := t[q.catB := t[q.catB] + s[q.id].scoreB];
      i := i + 1;
    }
  }

  // ------------------------------------------------------------ lemmas

  /** A category that no question mentions keeps its initial total of 0. */
  lemma {:induction false} UnreferencedIsZero(qs: seq<QuestionPair>, s: ScoreState, n: nat, c: Category)
    requires n <= |qs| && Covers(qs, s)
    requires Catalog.OccurrencesIn(qs, n, c) == 0
    ensures TotalIn(qs, s, n, c) == 0
  {
    if n > 0 {
      UnreferencedIsZero(qs, s, n - 1, c);
    }
  }

  /** Each total lies between 0 and 3 times the number of sides that carry
      its category, when every entry is valid. */
  lemma {:induction false} TotalBounds(qs: seq<QuestionPair>, s: ScoreState, n: nat, c: Category)
    requires n <= |qs| && Covers(qs, s)
    requires forall id :: id in s ==> Scores.ValidPair(s[id])
    ensures 0 <= TotalIn(qs, s, n, c) <= 3 * Catalog.OccurrencesIn(qs, n, c)
  {
    if n > 0 {
      TotalBounds(qs, s, n - 1, c);
      assert Scores.ValidPair(s[qs[n - 1].id]);
    }
  }

  /** The totals together count every point of every question once: their sum
      is the sum of scoreA + scoreB over the questions. */
  lemma {:induction false} SumOfTotalsIn(qs: seq<QuestionPair>, s: ScoreState, n: nat)
    requires n <= |qs| && Covers(qs, s)
    ensures TotalIn(qs, s, n, A) + TotalIn(qs, s, n, B) + TotalIn(qs, s, n, C) + TotalIn(qs, s, n, D)
          + TotalIn(qs, s, n, E) + TotalIn(qs, s, n, F) + TotalIn(qs, s, n, G)
         == PointsIn(qs, s, n)
  {
    if n > 0 {
      SumOfTotalsIn(qs, s, n - 1);
    }
  }

  /** The points handed out by the first `n` questions. */
  function PointsIn(qs: seq<QuestionPair>, s: ScoreState, n: nat): int
    requires n <= |qs| && Covers(qs, s)
  {
    if n == 0 then 0 else PointsIn(qs, s, n - 1) + s[qs[n - 1].id].scoreA + s[qs[n - 1].id].scoreB
  }

  /** Under the sum-3 invariant the seven totals add up to 3 points per
      question. */
  lemma {:induction false} SumOfTotals(qs: seq<QuestionPair>, s: ScoreState)
    requires Covers(qs, s)
    requires forall id :: id in s ==> s[id].scoreA + s[id].scoreB == 3
    ensures SumOf(CategoryTotals(qs, s)) == 3 * |qs|
  {
    SumOfTotalsIn(qs, s, |qs|);
    PointsThree(qs, s, |qs|);
  }

  lemma {:induction false} PointsThree(qs: seq<QuestionPair>, s: ScoreState, n: nat)
    requires n <= |qs| && Covers(qs, s)
    requires forall id :: id in s ==> s[id].scoreA + s[id].scoreB == 3
    ensures PointsIn(qs, s, n) == 3 * n
  {
    if n > 0 {
      PointsThree(qs, s, n - 1);
      assert qs[n - 1].id in s;
    }
  }

  /** A well-formed score state covers its questions. */
  lemma WellFormedCovers(qs: seq<QuestionPair>, s: ScoreState)
    requires Scores.WellFormed(qs, s)
    ensures Covers(qs, s)
  {
  }

  /** For the catalog: the seven totals add up to 63 and each lies in 0..21,
      the radius domain of the chart. */
  lemma CatalogTotals(s: ScoreState, c: Category)
    requires Scores.WellFormed(Catalog.Questions, s)
    ensures SumOf(CategoryTotals(Catalog.Questions, s)) == 63
    ensures 0 <= CategoryTotals(Catalog.Questions, s)[c] <= 21
  {
    WellFormedCovers(Catalog.Questions, s);
    SumOfTotals(Catalog.Questions, s);
    CatalogBound(s, c);
  }

  lemma CatalogBound(s: ScoreState, c: Category)
    requires Scores.WellFormed(Catalog.Questions, s)
    ensures Covers(Catalog.Questions, s)
    ensures 0 <= Total(Catalog.Questions, s, c) <= 21
  {
    TotalBounds(Catalog.Questions, s, |Catalog.Questions|, c);
    Catalog.CatalogOccurrences(c);
  }
}

=== FILE: types.dfy ===
/** The record and enumeration types of the quiz: the seven power-base codes,
    a question pair, one entry of the score state and the description of a
    power base. Question and description texts are not modelled. */
module Types {

  /** The closed set of seven power-base codes. */
  datatype Category = A | B | C | D | E | F | G

  /** All codes in declaration order, the order the totals record is built in. */
  const AllCategories: seq<Category> := [A, B, C, D, E, F, G]

  /** Position of a code in `AllCategories`. */
  function Ord(c: Category): (n: nat)
    ensures n < |AllCategories| && AllCategories[n] == c
  {
    match c
    case A => 0
    case B => 1
    case C => 2
    case D => 3
    case E => 4
    case F => 5
    case G => 6
  }

  /** Every code occurs in `AllCategories`. */
  lemma AllCategoriesComplete()
    ensures forall c :: c in AllCategories
  {
    forall c ensures c in AllCategories {
      assert AllCategories[Ord(c)] == c;
    }
  }

  /** The one-letter string a code is written as, and used as a record key. */
  function Code(c: Category): (s: string)
    ensures |s| == 1 && s[0] == "ABCDEFG"[Ord(c)]
  {
    match c
    case A => "A"
    case B => "B"
    case C => "C"
    case D => "D"
    case E => "E"
    case F => "F"
    case G => "G"
  }

  lemma CodeInjective(c: Category, d: Category)
    ensures Code(c) == Code(d) <==> c == d
  {
    if Code(c) == Code(d) {
      assert Code(c)[0] == Code(d)[0];
    }
  }

  /** A forced-choice item: 3 points are split between side A (category `catA`)
      and side B (category `catB`). */
  datatype QuestionPair = QuestionPair(id: int, catA: Category, catB: Category)

  /** One entry of the score state. The type does not bound the values. */
  datatype ScorePair = ScorePair(scoreA: int, scoreB: int)

  /** A map from question id to its score pair. */
  type ScoreState = map<int, ScorePair>

  /** The descriptive record of a power base; `description` is not modelled. */
  datatype PowerBaseInfo = PowerBaseInfo(category: Category, name: string, color: string)

  datatype Option<T> = None | Some(value: T)
}
